=== FILE: README.md ===
# BicingBot proximity grid, in Dafny

This project models the spatial bucketing grid of `BicingGraph` in BicingBot's
`data.py`, together with the state that depends on it.

- **The grid.** `_make_grid` puts every station node into a square cell. The
  cell side is `CELL_FACTOR * distance`, and cells are counted from the cached
  bottom-left corner of the station set.
- **The state.** `construct_graph` checks the distance, builds the grid and
  records the distance. The `distance` property forwards to it.

The model is functional:

- A graph is an immutable `Bicing.BicingGraph` value. It holds a node map from
  id to coordinate, an edge set, the corner and the optional distance.
- Every operation returns a `Result`: either the new graph or the exception
  the Python code raises.
- Coordinates are Dafny `real`s. Python's `int()` on a float is modelled
  explicitly as truncation toward zero (`Geo.Trunc`).

Modules:

- `Outcomes` (outcomes.dfy): `Option`, `Result` and the three exceptions that
  can be raised. These are the negative-distance `ValueError`, the
  `ZeroDivisionError` and the `ValueError` from `min` over no stations.
- `Geo` (geo.dfy): `Coordinate`, truncation, the planar squared distance, and
  the real-arithmetic facts the grid bound rests on.
- `ProximityGrid` (grid.dfy): cell indices, the grid as a function
  (`MakeGrid`), the loop that builds it (`BuildGrid`), and the grid's
  properties.
- `Bicing` (graph.dfy): the graph constructor, `construct_graph`, and the
  `distance` getter and setter.

`CELL_FACTOR` is sqrt(2)/2, which Dafny cannot compute. It is therefore a
parameter `factor` of the operations that use it. It is pinned down by
`ProximityGrid.IsCellFactor(f)`: `f > 0` and `2*f*f == 1`, which single out
sqrt(2)/2 among the reals. The operations that need the constant require this.
The distance bound uses only `f > 0` and `2*f*f <= 1`.

Three points of the code's behaviour shape the model:

- **Cell side.** The cell side is `CELL_FACTOR * distance` (data.py:71). The
  comment at data.py:16-17 and the docstring promise
  that two stations in the same cell are less than `distance` apart. This
  holds in the planar metric and is proved (`GridCellsWithinDistance`).
- **Distance zero.** A zero cell length makes the division at data.py:74
  raise `ZeroDivisionError` as soon as there is a node. So `construct_graph(0)`
  fails on every graph with a node, and every graph the constructor returns
  has one. On a graph without nodes the loop never runs, and the empty grid
  is returned.
- **Edges.** `construct_graph` never touches the edge set, so edges are
  unchanged.

A failed call returns `Failure` and no graph, so the caller's graph value is
the state after the call. This models the Python check raising before any
attribute is assigned (data.py:58-59) and the setter's assignment being
skipped when `construct_graph` raises (data.py:53-54).

## Model

| member | source | states |
|---|---|---|
| Geo.Trunc | data.py:74-75 | `int()` truncates toward zero. On a non-negative value the result is the integer part, between `x - 1` and `x`. On a negative value it is between `x` and `x + 1` and never positive. |
| Geo.DiagonalBound | data.py:16-18 | Offsets smaller than the side `factor * distance` of a square, with `2*factor*factor == 1`, give a squared planar distance strictly below `distance*distance`. |
| ProximityGrid.IsCellFactor | data.py:16-18 | `CELL_FACTOR` is characterised as positive with square one half, which singles out sqrt(2)/2 among the reals. `Geo.DiagonalBound` shows that with this side, any two points of one half-open cell are strictly closer than `distance`. |
| ProximityGrid.CellLength | data.py:71 | The cell side is `CELL_FACTOR * distance`. `SameCellCloserThanDistance` and `GridCellsWithinDistance` state what this side guarantees. |
| ProximityGrid.CellIndex | data.py:74-76 | A node's cell is the pair of `int()`-truncated offsets from the corner, in cell lengths. `CellIndexIsFloor` shows it equals the floored offsets above the corner. `CellIndexBounds` shows it is non-negative and places the node in its half-open square. |
| ProximityGrid.AddToCell | data.py:77 | `grid.setdefault(cell, set()).add(id)`. `GroupByCellInsert` shows it adds the id to that one cell and changes no other. |
| ProximityGrid.ScaledTruncBounds | data.py:74-75 | For a non-negative offset and a positive cell length, the truncated quotient is non-negative and equals the floor. The offset lies in `[i*c, i*c + c)`. |
| ProximityGrid.CellIndexIsFloor | data.py:74-76 | When the origin bounds a coordinate from below, its cell index is the pair of floored scaled offsets. There, `int()` and floor agree. |
| ProximityGrid.CellIndexBounds | data.py:74-76 | When the origin bounds a coordinate from below and the cell length is positive, both cell indices are non-negative. The coordinate lies in the half-open square `[i*c, i*c + c) x [j*c, j*c + c)` measured from the origin. |
| ProximityGrid.GroupByCell | data.py:72-79 | The grid induced by a placement of ids is a partition of the placed ids: cells are non-empty, pairwise disjoint and cover every id. Each id is in exactly the cell it was placed in. The occupied cells are exactly the placed cell indices. |
| ProximityGrid.GroupByCellInsert | data.py:77 | Placing one new id is the same as `setdefault(cell, set()).add(id)` on the grid of the others. Only that one cell changes. |
| ProximityGrid.MakeGrid | data.py:66-79 | The grid fails with `ZeroDivision` exactly when the cell length is zero and there is at least one node. Otherwise it partitions the node ids, and a node is in a cell exactly when that cell is its cell index. |
| ProximityGrid.PlacementExtend | data.py:73-77 | Handling one more node of the loop adds exactly that node to its own cell of the grid built so far. |
| ProximityGrid.BuildGrid | data.py:71-79 | The loop over the nodes in any order, using `setdefault(...).add(...)`, returns exactly the result of `MakeGrid`. That includes the zero-division failure on the first node when the cell length is zero. |
| ProximityGrid.SameCellIff | data.py:71-77 | With a positive cell length and the origin below all nodes, the grid is built. Two nodes `a` and `b` share a cell exactly when the floored scaled offsets of `a` and `b` agree in both coordinates. |
| ProximityGrid.GridIndicesNonNegative | data.py:74-76 | With a positive cell length and the origin below all nodes, the grid is built and every cell index has both components non-negative. |
| ProximityGrid.SameSlabCloserThanSide | data.py:74-75 | Two non-negative offsets with the same truncated quotient differ by less than the cell length. |
| ProximityGrid.SameCellCloserThanDistance | data.py:16-18 | Take two coordinates above the origin, a cell length of `CELL_FACTOR * distance` and `distance > 0`. If the coordinates have the same cell index, they are strictly closer than `distance` in the planar metric. |
| ProximityGrid.GridCellsWithinDistance | data.py:66-71 | For `distance > 0`, with the origin below all nodes, the grid is built. Any two stations in the same cell are strictly less than `distance` apart in the planar metric, as the docstring promises. |
| Bicing.NodesOf | data.py:36 | Every station id passed to `add_nodes_from` becomes a node. |
| Bicing.LastStationWins | data.py:36 | When an id repeats, the node keeps the coordinate of the last station with that id. |
| Bicing.StationOfNode | data.py:36 | Every node comes from a station with its id. The lemma returns that station's index. |
| Bicing.MinOf | data.py:39 | `min` of a non-empty sequence is at most every element and is one of the elements. |
| Bicing.BottomLeft | data.py:39 | `_bottom_left` is below and to the left of every station passed in. Its latitude and longitude are each attained by some station. |
| Bicing.LowerBoundOfStationsBoundsNodes | data.py:36-39 | A lower bound of all station positions bounds every node. This includes repeated ids, where `min` also sees the overwritten coordinates. |
| Bicing.NewGraph | data.py:34-40 | For a station collection that can be read more than once, construction fails with `EmptyStations` exactly when there are no stations. Otherwise the nodes come from the stations and are non-empty, and there are no edges. The distance is `None`. The corner is below every station passed in, and its latitude and longitude are each attained, so it is the componentwise minimum. The graph is `Valid`. |
| Bicing.MinOrRaise | data.py:39 | `min` raises exactly when its argument is empty. Otherwise it returns an element that is at most every element. |
| Bicing.AddNodesFrom | data.py:36 | `add_nodes_from` takes a one-shot iterator's stations one at a time, and nothing of the iterator remains when the loop ends. |
| Bicing.NodesOfConcat | data.py:36 | Adding two runs of stations one after the other gives the first run's nodes, overridden by the second run's. |
| Bicing.AddNodesFromIsNodesOf | data.py:36 | One pass of `add_nodes_from` over the iterator adds exactly the node map `NodesOf` describes on top of the existing nodes. The same pass uses up the iterator. |
| Bicing.NewGraphFromIterator | data.py:34-44 | For the one-shot iterator that `from_dataframe` passes, the constructor as written always raises the `ValueError` of `min`. `add_nodes_from` has used the iterator up, so the first `min` raises and the second is never reached. |
| Bicing.IteratorConstructionAlwaysFails | data.py:34-44 | On every non-empty station list, the re-readable reading builds a graph, but the one-shot iterator makes the constructor raise. |
| Bicing.ConstructGraph | data.py:56-64 | The call fails exactly when `distance < 0`, or when `distance == 0` and the graph has a node. A negative distance is reported as `NegativeDistance` and a zero distance as `ZeroDivision`. On success the result equals the input with only the distance set: nodes, edges and corner are unchanged, and validity is preserved. |
| Bicing.SetDistance | data.py:46-54 | The setter fails exactly when `construct_graph` does, with the same exception. After a successful set, the getter returns the value set. Nodes, edges and corner are unchanged. |
| Bicing.Distance | data.py:46-49 | The getter returns the recorded `_distance`. `SetDistance` shows that after a successful set it returns the value set, and `NewGraph` that it is `None` before any set. |
| Bicing.ConstructGraphIdempotent | data.py:56-64 | Running `construct_graph` a second time with the same distance gives the same graph as the first call. |
| Bicing.ValidGraphGrid | data.py:66-79 | On any valid graph, for `distance > 0`, the grid is built, has non-negative cell indices, and holds only stations less than `distance` apart in each cell. |

## Left out

- `fetch_data` (data.py:10-13) is left out because it fetches over HTTP. The
  pandas DataFrame handling of `from_dataframe` (data.py:43-44) is left out.
  Only the one-shot iterator it passes is modelled
  (`Bicing.NewGraphFromIterator`).
- The networkx graph behind `BicingGraph` is abstracted:
  - Nodes are a map from id to coordinate.
  - Edges are a set of id pairs, which the modelled code never changes.
  - Looking up `node['lat']` on attribute dictionaries is the map lookup.
- A station given to the constructor is an id with a coordinate, so it serves
  both `add_nodes_from` and `s.lat`/`s.lon`. The Python code needs each element
  to do both: to unpack as `(id, attrs)` at data.py:36 and to carry `.lat` and
  `.lon` at data.py:39. An element that does only one, which raises
  `AttributeError`, is not modelled (see Findings).
- `_draw_edges` (data.py:81-86) is left out because it raises
  `NotImplementedError`. There is no edge-drawing behaviour to model, so no
  edge is ever added.
- bot.py is left out: the Telegram handlers, text loading and polling are I/O.
  The graph commands (bot.py:64-91) raise `NotImplementedError`.
- IEEE floating point is left out. Coordinates, the division at data.py:74-75
  and `CELL_FACTOR` are exact reals. In particular, the rounded double for
  sqrt(2)/2 is not modelled.
- The degrees-versus-metres mismatch in the cell length (data.py:71) is left
  out. The arithmetic is modelled exactly as written, in the planar
  latitude/longitude metric. There is no great-circle distance.
- A `distance` that is not a number (`None`, NaN) is left out. Only real
  distances are modelled.
- Bicing.ConstructGraph: requires `IsCellFactor(factor)`. The constant is
  characterised only by `factor > 0` and `2*factor*factor == 1`, because
  sqrt(2)/2 has no Dafny value.
- Bicing.NewGraph: models a station collection that can be read several
  times, whose elements serve both `add_nodes_from` and `s.lat`/`s.lon`. The
  constructor reads `stations` up to three times (data.py:36 and the `min`
  calls at data.py:39). With the one-shot iterator that `from_dataframe`
  passes (data.py:44), it raises for every input.
  `Bicing.NewGraphFromIterator` models that case (see Findings).

## Findings

| source | as written | input that shows it | evidently intended | confidence | as-written member | corrected member |
|---|---|---|---|---|---|---|
| data.py:34-44 | `__init__` reads `stations` up to three times. It needs every element both to unpack as `(id, attrs)` for `add_nodes_from` and to carry `.lat`/`.lon` for `min`. `from_dataframe` passes `stations.iterrows()`, a one-shot generator of `(index, Series)` tuples. `add_nodes_from` uses it up, so the first `min` raises `ValueError` and the second is never reached. Read again, the tuples would still lack `.lat` and raise `AttributeError`. | `from_dataframe` of any frame: the nodes are added, then the first `min` raises `ValueError` | the corner is the minimum over the same stations that became nodes, for example `stations = list(stations)` followed by `min(row['lat'] for _, row in stations)` and likewise for `lon` | not executed; medium, since it rests on `iterrows()` being a one-shot generator of tuples and on networkx's `add_nodes_from` running it to its end | Bicing.NewGraphFromIterator, Bicing.IteratorConstructionAlwaysFails | Bicing.NewGraph |

=== FILE: geo.dfy ===
/** Geographic coordinates and the arithmetic the grid is built from. */
module Geo {

  /** Station identifiers, the integer node keys of the graph. */
  type StationId = int

  /** A latitude/longitude pair in degrees. */
  datatype Coordinate = Coordinate(lat: real, lon: real)

  /** Python's `int()` applied to a float: truncation toward zero. */
  function Trunc(x: real): (r: int)
    ensures 0.0 <= x ==> 0 <= r && r as real <= x < r as real + 1.0
    ensures x < 0.0 ==> r <= 0 && r as real - 1.0 < x <= r as real
  {
    if 0.0 <= x then x.Floor else -((-x).Floor)
  }

  /** `origin` is below and to the left of `p` (or level with it). */
  predicate IsLowerBound(origin: Coordinate, p: Coordinate) {
    origin.lat <= p.lat && origin.lon <= p.lon
  }

  /** Squared distance in the planar latitude/longitude metric. */
  function SquaredPlanarDistance(a: Coordinate, b: Coordinate): real {
    (a.lat - b.lat) * (a.lat - b.lat) + (a.lon - b.lon) * (a.lon - b.lon)
  }

  /** Dividing a non-negative offset by a positive length. */
  lemma NonNegativeQuotient(x: real, c: real)
    requires 0.0 <= x && 0.0 < c
    ensures 0.0 <= x / c && (x / c) * c == x
  {
  }

  /** A quotient between `lo` and `lo + 1` scales to between `lo * c` and `lo * c + c`. */
  lemma ScaleUnitInterval(q: real, lo: real, c: real)
    requires lo <= q < lo + 1.0 && 0.0 < c
    ensures lo * c <= q * c < lo * c + c
  {
    assert 0.0 <= (q - lo) * c;
    assert 0.0 < (lo + 1.0 - q) * c;
  }

  /** A square is below another square whenever the base is closer to zero. */
  lemma SquareBelow(x: real, c: real)
    requires -c < x < c
    ensures x * x < c * c
  {
    var y := if 0.0 <= x then x else -x;
    assert y * y == x * x;
    assert 0.0 <= y < c;
    assert 0.0 <= y * (c - y);
    assert 0.0 < c * (c - y);
  }

  /**
   * Offsets smaller than the side `factor * distance` of a square give a
   * planar distance below `distance` when `factor` is sqrt(2)/2: the
   * diagonal of the square is exactly `distance`.
   */
  lemma DiagonalBound(dlat: real, dlon: real, distance: real, factor: real)
    requires 0.0 < factor && 2.0 * factor * factor == 1.0
    requires -(factor * distance) < dlat < factor * distance
    requires -(factor * distance) < dlon < factor * distance
    ensures dlat * dlat + dlon * dlon < distance * distance
  {
    var c := factor * distance;
    SquareBelow(dlat, c);
    SquareBelow(dlon, c);
    assert c * c == (factor * factor) * (distance * distance);
  }
}

=== FILE: graph.dfy ===
/**
 * The state of `BicingGraph` that the distance threshold touches: the station
 * nodes with their coordinates, the edge set, the cached bottom-left corner
 * of the station set and the current connection distance.
 */
module Bicing {
  import opened Outcomes
  import opened Geo
  import opened ProximityGrid

  /** A station as the graph receives it: its id and where it is. */
  datatype Station = Station(id: StationId, pos: Coordinate)

  /** An undirected edge between two stations. */
  type Edge = (StationId, StationId)

  /**
   * `nodes` maps each station id to its coordinate, `bottomLeft` is the
   * cached `_bottom_left` corner and `distance` is `_distance`, `None` until
   * a distance has been set.
   */
  datatype BicingGraph = BicingGraph(
    nodes: map<StationId, Coordinate>,
    edges: set<Edge>,
    bottomLeft: Coordinate,
    distance: Option<real>)

  /** Station `i` is the last one in the input carrying its id. */
  ghost predicate IsLastWithId(stations: seq<Station>, i: int) {
    && 0 <= i < |stations|
    && forall j :: i < j < |stations| ==> stations[j].id != stations[i].id
  }

  /**
   * The node map `add_nodes_from(stations)` produces: one node per distinct
   * id, and a repeated id keeps the coordinate of its last occurrence.
   */
  function NodesOf(stations: seq<Station>): (nodes: map<StationId, Coordinate>)
    ensures forall i :: 0 <= i < |stations| ==> stations[i].id in nodes
  {
    if |stations| == 0 then map[]
    else
      var last := stations[|stations| - 1];
      var prefix := stations[..|stations| - 1];
      assert forall i :: 0 <= i < |prefix| ==> prefix[i] == stations[i];
      NodesOf(prefix)[last.id := last.pos]
  }

  /** A station that is the last with its id leaves its coordinate on the node. */
  lemma {:induction false} LastStationWins(stations: seq<Station>, i: int)
    requires IsLastWithId(stations, i)
    ensures NodesOf(stations)[stations[i].id] == stations[i].pos
  {
    if i < |stations| - 1 {
      var prefix := stations[..|stations| - 1];
      assert prefix[i] == stations[i];
      assert IsLastWithId(prefix, i);
      LastStationWins(prefix, i);
    }
  }

  /** Every node comes from some station with its id: the index of one. */
  lemma {:induction false} StationOfNode(stations: seq<Station>, id: StationId) returns (i: int)
    requires id in NodesOf(stations)
    ensures 0 <= i < |stations| && stations[i].id == id
  {
    var prefix := stations[..|stations| - 1];
    if stations[|stations| - 1].id == id {
      i := |stations| - 1;
    } else {
      i := StationOfNode(prefix, id);
      assert prefix[i] == stations[i];
    }
  }

  /** Python's `min` over a non-empty sequence of reals. */
  function MinOf(xs: seq<real>): (m: real)
    requires |xs| > 0
    ensures forall i :: 0 <= i < |xs| ==> m <= xs[i]
    ensures m in xs
  {
    if |xs| == 1 then xs[0]
    else
      var rest := MinOf(xs[1..]);
      assert forall i :: 1 <= i < |xs| ==> xs[i] == xs[1..][i - 1];
      if xs[0] <= rest then xs[0] else rest
  }

  /** The latitudes of the stations, in input order. */
  function Lats(stations: seq<Station>): (lats: seq<real>)
    ensures |lats| == |stations|
  {
    seq(|stations|, i requires 0 <= i < |stations| => stations[i].pos.lat)
  }

  /** The longitudes of the stations, in input order. */
  function Lons(stations: seq<Station>): (lons: seq<real>)
    ensures |lons| == |stations|
  {
    seq(|stations|, i requires 0 <= i < |stations| => stations[i].pos.lon)
  }

  /**
   * `_bottom_left`: the smallest latitude and the smallest longitude over
   * every station passed in, each attained by some station.
   */
  function BottomLeft(stations: seq<Station>): (origin: Coordinate)
    requires |stations| > 0
    ensures forall i :: 0 <= i < |stations| ==> IsLowerBound(origin, stations[i].pos)
    ensures origin.lat in Lats(stations) && origin.lon in Lons(stations)
  {
    var lats, lons := Lats(stations), Lons(stations);
    assert forall i :: 0 <= i < |stations| ==> lats[i] == stations[i].pos.lat && lons[i] == stations[i].pos.lon;
    Coordinate(MinOf(lats), MinOf(lons))
  }

  /** A lower bound of every station position bounds every node built from them. */
  lemma {:induction false} LowerBoundOfStationsBoundsNodes(stations: seq<Station>, origin: Coordinate)
    requires forall i :: 0 <= i < |stations| ==> IsLowerBound(origin, stations[i].pos)
    ensures BoundsBelow(origin, NodesOf(stations))
  {
    if |stations| > 0 {
      var prefix := stations[..|stations| - 1];
      assert forall i :: 0 <= i < |prefix| ==> prefix[i] == stations[i];
      LowerBoundOfStationsBoundsNodes(prefix, origin);
      assert NodesOf(stations) == NodesOf(prefix)[stations[|stations| - 1].id := stations[|stations| - 1].pos];
    }
  }

  /**
   * What the model keeps true of every graph: the cached corner bounds every
   * node from below and a recorded distance is non-negative.
   */
  ghost predicate Valid(g: BicingGraph) {
    && BoundsBelow(g.bottomLeft, g.nodes)
    && (g.distance.Some? ==> 0.0 <= g.distance.value)
  }

  /**
   * `BicingGraph(stations)`: the nodes come from the stations, there are no
   * edges and no distance yet, and the corner is the componentwise minimum;
   * with no stations `min` raises.
   */
  function NewGraph(stations: seq<Station>): (r: Result<BicingGraph>)
    ensures r.Failure? <==> |stations| == 0
    ensures r.Failure? ==> r.error == EmptyStations
    ensures r.Success? ==>
      && r.value.nodes == NodesOf(stations)
      && r.value.nodes != map[]
      && r.value.edges == {}
      && r.value.distance == None
      && (forall i :: 0 <= i < |stations| ==> IsLowerBound(r.value.bottomLeft, stations[i].pos))
      && r.value.bottomLeft.lat in Lats(stations)
      && r.value.bottomLeft.lon in Lons(stations)
      && Valid(r.value)
  {
    if |stations| == 0 then Failure(EmptyStations)
    else
      var origin := BottomLeft(stations);
      LowerBoundOfStationsBoundsNodes(stations, origin);
      Success(BicingGraph(NodesOf(stations), {}, origin, None))
  }

  /** Python's `min` over a generator: it raises `ValueError` when nothing is left. */
  function MinOrRaise(xs: seq<real>): (r: Result<real>)
    ensures r.Failure? <==> |xs| == 0
    ensures r.Failure? ==> r.error == EmptyStations
    ensures r.Success? ==> r.value in xs && forall i :: 0 <= i < |xs| ==> r.value <= xs[i]
  {
    if |xs| == 0 then Failure(EmptyStations) else Success(MinOf(xs))
  }

  /**
   * `add_nodes_from` over a one-shot iterator: it takes the stations one at a
   * time, adding each to `nodes`, and hands back what the iterator still
   * holds once the loop ends.
   */
  function AddNodesFrom(nodes: map<StationId, Coordinate>, remaining: seq<Station>)
    : (result: (map<StationId, Coordinate>, seq<Station>))
    // Kept on the function so that callers see the iterator is used up without
    // a lemma call; `AddNodesFromIsNodesOf` states what the walk builds.
    ensures result.1 == []
    decreases |remaining|
  {
    if remaining == [] then (nodes, remaining)
    else AddNodesFrom(nodes[remaining[0].id := remaining[0].pos], remaining[1..])
  }

  /** The node map of a concatenation: the later stations override the earlier. */
  lemma {:induction false} NodesOfConcat(a: seq<Station>, b: seq<Station>)
    ensures NodesOf(a + b) == NodesOf(a) + NodesOf(b)
    decreases |b|
  {
    if |b| == 0 {
      assert a + b == a;
    } else {
      var last := b[|b| - 1];
      var front := b[..|b| - 1];
      assert (a + b)[..|a + b| - 1] == a + front;
      assert (a + b)[|a + b| - 1] == last;
      NodesOfConcat(a, front);
    }
  }

  /**
   * Walking the iterator once builds the same node map as `NodesOf`, on top
   * of the nodes already present, and leaves the iterator empty.
   */
  lemma {:induction false} AddNodesFromIsNodesOf(nodes: map<StationId, Coordinate>, stations: seq<Station>)
    ensures AddNodesFrom(nodes, stations) == (nodes + NodesOf(stations), [])
    decreases |stations|
  {
    if stations != [] {
      var first := stations[0];
      AddNodesFromIsNodesOf(nodes[first.id := first.pos], stations[1..]);
      assert stations == [first] + stations[1..];
      NodesOfConcat([first], stations[1..]);
      assert [first][..0] == [];
      assert NodesOf([first]) == map[first.id := first.pos];
      assert nodes[first.id := first.pos] + NodesOf(stations[1..])
          == nodes + (map[first.id := first.pos] + NodesOf(stations[1..]));
    } else {
      assert nodes + NodesOf(stations) == nodes;
    }
  }

  /**
   * `BicingGraph(stations)` as written, for the one-shot iterator that
   * `from_dataframe` passes (`stations.iterrows()`): `add_nodes_from` runs it
   * to the end, so the first `min` sees no stations and raises before the
   * second `min` is reached.
   */
  function NewGraphFromIterator(stations: seq<Station>): (r: Result<BicingGraph>)
    ensures r.Failure? && r.error == EmptyStations
  {
    var (nodes, rest) := AddNodesFrom(map[], stations);
    match MinOrRaise(Lats(rest))
    case Failure(e) => Failure(e)
    case Success(lat) =>
      match MinOrRaise(Lons(rest))
      case Failure(e) => Failure(e)
      case Success(lon) => Success(BicingGraph(nodes, {}, Coordinate(lat, lon), None))
  }

  /**
   * The discrepancy: on any non-empty station list the re-readable reading
   * builds a graph, while the iterator that `from_dataframe` passes makes the
   * constructor raise.
   */
  lemma IteratorConstructionAlwaysFails(stations: seq<Station>)
    requires |stations| > 0
    ensures NewGraph(stations).Success?
    ensures NewGraphFromIterator(stations) == Failure(EmptyStations)
  {
  }

  /** The `distance` property getter. */
  function Distance(g: BicingGraph): Option<real> {
    g.distance
  }

  /**
   * `construct_graph(distance)`: a negative distance is rejected before
   * anything changes; otherwise the grid is built (which fails on a zero
   * distance as soon as there is a node) and dropped, and the distance is
   * recorded. Nodes, edges and the corner are never changed.
   */
  function ConstructGraph(g: BicingGraph, distance: real, factor: real): (r: Result<BicingGraph>)
    requires IsCellFactor(factor)
    ensures r.Failure? <==> distance < 0.0 || (distance == 0.0 && g.nodes != map[])
    ensures distance < 0.0 ==> r == Failure(NegativeDistance)
    ensures 0.0 <= distance && r.Failure? ==> r.error == ZeroDivision
    ensures r.Success? ==> r.value == g.(distance := Some(distance))
    ensures r.Success? && Valid(g) ==> Valid(r.value)
  {
    if distance < 0.0 then Failure(NegativeDistance)
    else
      match MakeGrid(g.nodes, g.bottomLeft, distance, factor)
      case Failure(e) => Failure(e)
      case Success(_) => Success(g.(distance := Some(distance)))
  }

  /**
   * The `distance` property setter: it forwards to `construct_graph` and
   * then records the value, so after a successful set the getter returns
   * exactly the value set, and a failed set changes nothing.
   */
  function SetDistance(g: BicingGraph, value: real, factor: real): (r: Result<BicingGraph>)
    requires IsCellFactor(factor)
    ensures r.Failure? <==> value < 0.0 || (value == 0.0 && g.nodes != map[])
    ensures r.Failure? ==> r.error == (if value < 0.0 then NegativeDistance else ZeroDivision)
    ensures r.Success? ==> Distance(r.value) == Some(value)
    ensures r.Success? ==>
      r.value.nodes == g.nodes && r.value.edges == g.edges && r.value.bottomLeft == g.bottomLeft
  {
    match ConstructGraph(g, value, factor)
    case Failure(e) => Failure(e)
    case Success(constructed) => Success(constructed.(distance := Some(value)))
  }

  /** Constructing twice with the same distance gives the graph the first call gave. */
  lemma ConstructGraphIdempotent(g: BicingGraph, distance: real, factor: real)
    requires IsCellFactor(factor)
    requires ConstructGraph(g, distance, factor).Success?
    ensures ConstructGraph(ConstructGraph(g, distance, factor).value, distance, factor)
         == ConstructGraph(g, distance, factor)
  {
  }

  /**
   * On any graph the model can reach, the grid built for a positive distance
   * has non-negative cell indices and puts only stations less than `distance`
   * apart in the same cell.
   */
  lemma ValidGraphGrid(g: BicingGraph, distance: real, factor: real)
    requires Valid(g)
    requires IsCellFactor(factor) && 0.0 < distance
    ensures MakeGrid(g.nodes, g.bottomLeft, distance, factor).Success?
    ensures forall k :: k in MakeGrid(g.nodes, g.bottomLeft, distance, factor).value ==> 0 <= k.0 && 0 <= k.1
    ensures forall k, a, b ::
      (k in MakeGrid(g.nodes, g.bottomLeft, distance, factor).value
      && a in MakeGrid(g.nodes, g.bottomLeft, distance, factor).value[k]
      && b in MakeGrid(g.nodes, g.bottomLeft, distance, factor).value[k])
      ==> a in g.nodes && b in g.nodes && SquaredPlanarDistance(g.nodes[a], g.nodes[b]) < distance * distance
  {
    assert 0.0 < CellLength(distance, factor);
    GridIndicesNonNegative(g.nodes, g.bottomLeft, distance, factor);
    GridCellsWithinDistance(g.nodes, g.bottomLeft, distance, factor);
  }
}

=== FILE: grid.dfy ===
/**
 * The spatial bucketing grid of `BicingGraph._make_grid`: every station is
 * placed in a square cell whose side is `CELL_FACTOR * distance`, counted
 * from the componentwise-minimum corner of the station set.
 */
module ProximityGrid {
  import opened Outcomes
  import opened Geo

  /** A cell index: (latitude row, longitude column). */
  type Cell = (int, int)

  /** Cell index to the set of stations placed in that cell. */
  type Grid = map<Cell, set<StationId>>

  /**
   * `CELL_FACTOR` is sqrt(2)/2. Dafny's reals have no square root, so the
   * constant is characterised by what the grid relies on: it is positive and
   * its square is one half.
   */
  predicate IsCellFactor(f: real) {
    0.0 < f && 2.0 * f * f == 1.0
  }

  /** The side of a cell for a given connection distance. */
  function CellLength(distance: real, factor: real): real {
    factor * distance
  }

  /** `origin` is a lower bound of every node's coordinate. */
  ghost predicate BoundsBelow(origin: Coordinate, nodes: map<StationId, Coordinate>) {
    forall id :: id in nodes ==> IsLowerBound(origin, nodes[id])
  }

  /** The cell a coordinate falls in, with `int()` truncating each quotient. */
  function CellIndex(p: Coordinate, origin: Coordinate, cellLength: real): Cell
    requires cellLength != 0.0
  {
    (Trunc((p.lat - origin.lat) / cellLength), Trunc((p.lon - origin.lon) / cellLength))
  }

  /** The floors of a coordinate's offsets from the origin, in cell lengths. */
  function FlooredOffsets(p: Coordinate, origin: Coordinate, cellLength: real): Cell
    requires cellLength != 0.0
  {
    (((p.lat - origin.lat) / cellLength).Floor, ((p.lon - origin.lon) / cellLength).Floor)
  }

  /** `grid.setdefault(cell, set()).add(id)`. */
  function AddToCell(grid: Grid, cell: Cell, id: StationId): Grid {
    grid[cell := (if cell in grid then grid[cell] else {}) + {id}]
  }

  /** Where the construction loop puts each node: the index of its cell. */
  function Placement(nodes: map<StationId, Coordinate>, origin: Coordinate, cellLength: real): (placement: map<StationId, Cell>)
    requires cellLength != 0.0
    ensures placement.Keys == nodes.Keys
  {
    map id | id in nodes :: CellIndex(nodes[id], origin, cellLength)
  }

  /**
   * `grid` partitions `ids`: its cells are non-empty subsets of `ids`, every
   * id lies in some cell and no id lies in two cells.
   */
  ghost predicate IsPartition(grid: Grid, ids: set<StationId>) {
    && (forall k :: k in grid ==> grid[k] != {} && grid[k] <= ids)
    && (forall id :: id in ids ==> exists k :: k in grid && id in grid[k])
    && (forall k1, k2, id :: k1 in grid && k2 in grid && id in grid[k1] && id in grid[k2] ==> k1 == k2)
  }

  /**
   * The grid a placement induces, defined cell by cell: each occupied cell
   * maps to exactly the ids placed in it.
   */
  function GroupByCell(placement: map<StationId, Cell>): (grid: Grid)
    ensures IsPartition(grid, placement.Keys)
    ensures forall id :: id in placement ==> placement[id] in grid && id in grid[placement[id]]
    ensures forall k, id :: k in grid && id in grid[k] ==> id in placement && placement[id] == k
    ensures grid.Keys == placement.Values
  {
    var grid := map k | k in placement.Values :: set id | id in placement && placement[id] == k;
    assert forall id :: id in placement ==> placement[id] in grid && id in grid[placement[id]];
    grid
  }

  /**
   * `_make_grid(distance)`: dividing by a zero cell length raises as soon as
   * there is a node to place; otherwise every node is placed in its cell and
   * nowhere else.
   */
  function MakeGrid(nodes: map<StationId, Coordinate>, origin: Coordinate, distance: real, factor: real): (r: Result<Grid>)
    ensures r.Failure? <==> CellLength(distance, factor) == 0.0 && nodes != map[]
    ensures r.Failure? ==> r.error == ZeroDivision
    ensures r.Success? ==> IsPartition(r.value, nodes.Keys)
    ensures r.Success? && CellLength(distance, factor) != 0.0 ==>
      forall k, id :: k in r.value && id in nodes ==>
        (id in r.value[k] <==> CellIndex(nodes[id], origin, CellLength(distance, factor)) == k)
  {
    var cellLength := CellLength(distance, factor);
    if cellLength == 0.0 then
      if nodes == map[] then Success(map[]) else Failure(ZeroDivision)
    else
      Success(GroupByCell(Placement(nodes, origin, cellLength)))
  }

  /** Some member of a non-empty set of ids. */
  lemma ElementOf(ids: set<StationId>) returns (id: StationId)
    requires ids != {}
    ensures id in ids
  {
    // The solver does not derive a member from `ids != {}` on its own; the
    // case split hands it the existential that the `:|` below needs.
    if forall x :: x !in ids {
      assert false;
    }
    id :| id in ids;
  }

  /** A key under which a map holds a given value. */
  lemma KeyOfValue(placement: map<StationId, Cell>, k: Cell) returns (id: StationId)
    requires k in placement.Values
    ensures id in placement && placement[id] == k
  {
    // As in `ElementOf`: the case split supplies the key the `:|` needs.
    if forall x :: x in placement ==> placement[x] != k {
      assert false;
    }
    id :| id in placement && placement[id] == k;
  }

  /** Placing one more id adds it to its own cell and changes no other cell. */
  lemma GroupByCellInsert(placement: map<StationId, Cell>, id: StationId, k: Cell)
    requires id !in placement
    ensures GroupByCell(placement[id := k]) == AddToCell(GroupByCell(placement), k, id)
  {
    var placement' := placement[id := k];
    var before := GroupByCell(placement);
    var after := GroupByCell(placement');
    var expected := AddToCell(before, k, id);
    forall k' | k' in after
      ensures k' in expected
    {
      if k' != k {
        var x := KeyOfValue(placement', k');
        assert placement[x] == k';
      }
    }
    forall k' | k' in expected
      ensures k' in after
    {
      if k' != k {
        var x := KeyOfValue(placement, k');
        assert x != id && placement'[x] == k';
        assert k' in placement'.Values;
      } else {
        assert placement'[id] == k';
      }
    }
    forall k' | k' in after
      ensures after[k'] == expected[k']
    {
      forall x
        ensures x in after[k'] <==> x in expected[k']
      {
        if x in after[k'] {
          assert x in placement' && placement'[x] == k';
        }
        if x in expected[k'] && x != id {
          assert x in before[k'];
          assert placement'[x] == k';
        }
      }
    }
  }

  /** Taking one more node out of the to-do set places it in its cell. */
  lemma PlacementExtend(nodes: map<StationId, Coordinate>, todo: set<StationId>, id: StationId, origin: Coordinate, cellLength: real)
    requires cellLength != 0.0
    requires todo <= nodes.Keys && id in todo
    ensures GroupByCell(Placement(nodes - (todo - {id}), origin, cellLength))
         == AddToCell(GroupByCell(Placement(nodes - todo, origin, cellLength)), CellIndex(nodes[id], origin, cellLength), id)
  {
    var done := Placement(nodes - todo, origin, cellLength);
    assert Placement(nodes - (todo - {id}), origin, cellLength) == done[id := CellIndex(nodes[id], origin, cellLength)];
    GroupByCellInsert(done, id, CellIndex(nodes[id], origin, cellLength));
  }

  /**
   * The construction loop of `_make_grid`: nodes are taken in an unspecified
   * order and each is added to its cell with `setdefault(...).add(...)`.
   */
  method BuildGrid(nodes: map<StationId, Coordinate>, origin: Coordinate, distance: real, factor: real) returns (r: Result<Grid>)
    ensures r == MakeGrid(nodes, origin, distance, factor)
  {
    var cellLength := factor * distance;
    var grid: Grid := map[];
    var todo := nodes.Keys;
    while todo != {}
      invariant todo <= nodes.Keys
      invariant cellLength == 0.0 ==> todo == nodes.Keys && grid == map[]
      invariant cellLength != 0.0 ==> grid == GroupByCell(Placement(nodes - todo, origin, cellLength))
      decreases todo
    {
      ghost var some := ElementOf(todo);
      var id :| id in todo;
      if cellLength == 0.0 {
        return Failure(ZeroDivision);
      }
      var cell := CellIndex(nodes[id], origin, cellLength);
      PlacementExtend(nodes, todo, id, origin, cellLength);
      grid := AddToCell(grid, cell, id);
      todo := todo - {id};
    }
    if cellLength != 0.0 {
      assert nodes - todo == nodes;
    } else {
      assert nodes == map[];
    }
    return Success(grid);
  }

  /** Scaling the floor bounds of a non-negative quotient back by the divisor. */
  lemma ScaledTruncBounds(x: real, c: real)
    requires 0.0 <= x && 0.0 < c
    ensures 0 <= Trunc(x / c)
    ensures Trunc(x / c) == (x / c).Floor
    ensures Trunc(x / c) as real * c <= x
    ensures x < Trunc(x / c) as real * c + c
  {
    var q := x / c;
    NonNegativeQuotient(x, c);
    assert Trunc(q) == q.Floor;
    var lo := Trunc(q) as real;
    ScaleUnitInterval(q, lo, c);
    calc {
      lo * c;
    <=
      q * c;
    ==
      x;
    }
    calc {
      x;
    ==
      q * c;
    <
      lo * c + c;
    }
  }

  /**
   * Where the offsets from the origin are non-negative, `int()` truncation
   * is the floor, so a node's cell is the pair of floored scaled offsets.
   */
  lemma CellIndexIsFloor(p: Coordinate, origin: Coordinate, cellLength: real)
    requires 0.0 < cellLength
    requires IsLowerBound(origin, p)
    ensures CellIndex(p, origin, cellLength) == FlooredOffsets(p, origin, cellLength)
  {
    ScaledTruncBounds(p.lat - origin.lat, cellLength);
    ScaledTruncBounds(p.lon - origin.lon, cellLength);
  }

  /**
   * A node's cell is the half-open square
   * [origin + i*c, origin + (i+1)*c) x [origin + j*c, origin + (j+1)*c)
   * with non-negative indices, because the origin bounds it from below.
   */
  lemma CellIndexBounds(p: Coordinate, origin: Coordinate, cellLength: real)
    requires 0.0 < cellLength
    requires IsLowerBound(origin, p)
    ensures var k := CellIndex(p, origin, cellLength);
      && 0 <= k.0 && 0 <= k.1
      && k.0 as real * cellLength <= p.lat - origin.lat < k.0 as real * cellLength + cellLength
      && k.1 as real * cellLength <= p.lon - origin.lon < k.1 as real * cellLength + cellLength
  {
    ScaledTruncBounds(p.lat - origin.lat, cellLength);
    ScaledTruncBounds(p.lon - origin.lon, cellLength);
  }

  /**
   * With a positive cell length two nodes share a cell exactly when the
   * floors of their scaled offsets from the origin agree in both coordinates.
   */
  lemma SameCellIff(nodes: map<StationId, Coordinate>, origin: Coordinate, distance: real, factor: real,
                    a: StationId, b: StationId)
    requires 0.0 < CellLength(distance, factor)
    requires BoundsBelow(origin, nodes)
    requires a in nodes && b in nodes
    ensures MakeGrid(nodes, origin, distance, factor).Success?
    ensures (exists k :: k in MakeGrid(nodes, origin, distance, factor).value
                      && a in MakeGrid(nodes, origin, distance, factor).value[k]
                      && b in MakeGrid(nodes, origin, distance, factor).value[k])
        <==> FlooredOffsets(nodes[a], origin, CellLength(distance, factor))
             == FlooredOffsets(nodes[b], origin, CellLength(distance, factor))
  {
    var c := CellLength(distance, factor);
    var placement := Placement(nodes, origin, c);
    var grid := MakeGrid(nodes, origin, distance, factor).value;
    assert grid == GroupByCell(placement);
    var ka := CellIndex(nodes[a], origin, c);
    assert placement[a] == ka;
    assert ka in grid && a in grid[ka];
    assert IsLowerBound(origin, nodes[a]) && IsLowerBound(origin, nodes[b]);
    CellIndexIsFloor(nodes[a], origin, c);
    CellIndexIsFloor(nodes[b], origin, c);
    if FlooredOffsets(nodes[a], origin, c) == FlooredOffsets(nodes[b], origin, c) {
      assert placement[b] == ka;
      assert b in grid[ka];
    }
  }

  /** With a positive cell length every cell of the grid has non-negative indices. */
  lemma GridIndicesNonNegative(nodes: map<StationId, Coordinate>, origin: Coordinate, distance: real, factor: real)
    requires 0.0 < CellLength(distance, factor)
    requires BoundsBelow(origin, nodes)
    ensures MakeGrid(nodes, origin, distance, factor).Success?
    ensures forall k :: k in MakeGrid(nodes, origin, distance, factor).value ==> 0 <= k.0 && 0 <= k.1
  {
    var c := CellLength(distance, factor);
    var grid := MakeGrid(nodes, origin, distance, factor).value;
    forall k | k in grid
      ensures 0 <= k.0 && 0 <= k.1
    {
      var id := ElementOf(grid[k]);
      CellIndexBounds(nodes[id], origin, c);
    }
  }

  /** Two offsets with the same truncated quotient differ by less than the divisor. */
  lemma SameSlabCloserThanSide(x: real, y: real, c: real)
    requires 0.0 <= x && 0.0 <= y && 0.0 < c
    requires Trunc(x / c) == Trunc(y / c)
    ensures -c < x - y < c
  {
    ScaledTruncBounds(x, c);
    ScaledTruncBounds(y, c);
  }

  /**
   * Two nodes in the same cell are strictly closer than `distance` in the
   * planar metric: each offset differs by less than the cell side c, and
   * 2*c*c == distance*distance because c = distance * sqrt(2)/2.
   */
  lemma SameCellCloserThanDistance(a: Coordinate, b: Coordinate, origin: Coordinate, distance: real, factor: real)
    requires IsCellFactor(factor) && 0.0 < distance
    // Implied by the line above, but a product of two reals; stated so that
    // the cell indices below are well defined without a nonlinear step.
    requires 0.0 < CellLength(distance, factor)
    requires IsLowerBound(origin, a) && IsLowerBound(origin, b)
    ensures CellIndex(a, origin, CellLength(distance, factor)) == CellIndex(b, origin, CellLength(distance, factor))
        ==> SquaredPlanarDistance(a, b) < distance * distance
  {
    var c := CellLength(distance, factor);
    if CellIndex(a, origin, c) == CellIndex(b, origin, c) {
      SameSlabCloserThanSide(a.lat - origin.lat, b.lat - origin.lat, c);
      SameSlabCloserThanSide(a.lon - origin.lon, b.lon - origin.lon, c);
      DiagonalBound(a.lat - b.lat, a.lon - b.lon, distance, factor);
    }
  }

  /**
   * Whenever the grid is built with a positive distance, any two stations
   * sharing a cell are less than `distance` apart.
   */
  lemma GridCellsWithinDistance(nodes: map<StationId, Coordinate>, origin: Coordinate, distance: real, factor: real)
    requires IsCellFactor(factor) && 0.0 < distance
    requires BoundsBelow(origin, nodes)
    ensures MakeGrid(nodes, origin, distance, factor).Success?
    ensures forall k, a, b ::
      (k in MakeGrid(nodes, origin, distance, factor).value
      && a in MakeGrid(nodes, origin, distance, factor).value[k]
      && b in MakeGrid(nodes, origin, distance, factor).value[k])
      ==> a in nodes && b in nodes && SquaredPlanarDistance(nodes[a], nodes[b]) < distance * distance
  {
    var c := CellLength(distance, factor);
    assert 0.0 < c;
    var grid := MakeGrid(nodes, origin, distance, factor).value;
    forall k, a, b | k in grid && a in grid[k] && b in grid[k]
      ensures a in nodes && b in nodes && SquaredPlanarDistance(nodes[a], nodes[b]) < distance * distance
    {
      assert CellIndex(nodes[a], origin, c) == k == CellIndex(nodes[b], origin, c);
      SameCellCloserThanDistance(nodes[a], nodes[b], origin, distance, factor);
    }
  }
}

=== FILE: outcomes.dfy ===
/** Optional values and error-carrying results used across the model. */
module Outcomes {

  /** A value that may be absent; `None` stands for Python's `None`. */
  datatype Option<+T> = None | Some(value: T)

  /** The exceptions the modelled operations can raise. */
  datatype GraphError =
    | NegativeDistance   // ValueError("distance should be non-negative")
    | ZeroDivision       // ZeroDivisionError from a zero cell length
    | EmptyStations      // ValueError from `min` over no stations

  /** Either the operation's value or the exception it raised. */
  datatype Result<+T> = Success(value: T) | Failure(error: GraphError)
}
